=== FILE: README.md ===
# Lane-dodging survival game: rules model

A Dafny model of the game rules of a Unity lane-dodging game. The player moves
sideways across a road. Cars spawn in random lanes and drive toward the player.
The game ends on the first collision with a car. Survival time is the score,
and the best time is kept in the player preferences. Every ten seconds of
survival, cars get faster and spawn more often, down to fixed floors.

Four scripts carry the rules. Each one is modelled as pure functions over
immutable records:

- `CarSpawner` (`car_spawner.dfy`, with the lane shuffle in `lane_shuffle.dfy`):
  - the evenly spaced lane table;
  - the spawn timer;
  - the spawn event. It shuffles the lane indices with Fisher–Yates (Knuth,
    *The Art of Computer Programming* vol. 2, section 3.4.2, Algorithm P) and
    puts one car in each of the first `count` shuffled lanes.
- `GameManager` (`game_manager.dfy`):
  - the game-over and pause flags;
  - the survival clock;
  - the best time and its writes to the preference store;
  - the difficulty steps on a fixed cadence of survival time.
- `Player` (`player.dfy`):
  - sideways velocity from the input;
  - facing, with a dead zone;
  - x clamped to the road;
  - game over on contact with a car.
- `CarMovement` (`car_movement.dfy`): the per-frame advance of a car toward
  negative z and its removal at the despawn line.

Other files:

- `engine.dfy` holds what the scripts use from the engine: `Mathf.Max`,
  `Mathf.Clamp`, and the ranges that `Random.Range` can return.
- `gating.dfy` states how the two flags gate the four scripts in one frame.
- `scenarios.dfy` works through cases with the scene's own numbers.

Engine services are parameters:

- Every random draw is a parameter. Its precondition is the range that the
  matching `Random.Range` call can return. Only these ranges are proved;
  uniformity is not.
- `Time.time` is the parameter `now`. `Time.deltaTime` is `dt`.
- `Input.GetAxis("Horizontal")` is `moveInput`. `Input.GetKeyDown(Escape)` is
  `escapePressed`.
- The game manager's singleton becomes an explicit `Session` argument. Each
  script receives the part of it that it reads.
- The preference store is a `map<string, real>` plus the log of writes the
  session made. Restarting reads the same store.
- Floats are `real`, so lane positions and clamps are exact.

Where the code is looser than one might expect, the model follows the code:

- While paused or after game over, the player's velocity is not set to zero.
  `Player.Update` returns early.
- Cars check only the pause flag. They keep moving and despawning after game
  over.
- `TogglePause` does not check the game-over flag. The toggle inside the
  manager's `Update` runs only while the game is running.
- Escape pauses but cannot resume, which contradicts the script's own comment
  above the key check: it describes Escape as toggling pause on and off. The
  key is read inside the running branch of the manager's `Update`, so while
  paused only a direct call of the public `TogglePause` from outside these
  scripts resumes the game (`GameManager.EscapeNeverResumes`).
- The spawner skips its gate when no game manager exists (`NoManager`).
- Restart reloads the scene and does not reset fields in place. The model
  restarts the session with `GameManager.Restart`. The spawner restarts with
  `CarSpawner.Start` from the scene's configuration.
- A single lane is not a configuration the code rejects. It divides by zero,
  which in floats makes that lane's position not-a-number. The model reports
  it as `Failure(SingleLane)`. A negative lane count makes the array
  allocation throw; the model reports `Failure(NegativeLaneCount)`.

## Model

| member | source | states |
|---|---|---|
| Engine.Max | Assets/Scripts/GameManager.cs:111-112 | The result is at least both arguments and is one of them. |
| Engine.Clamp | Assets/Scripts/Player.cs:41 | With `min <= max` the result lies in `[min, max]`. A value already inside is returned unchanged. A value below `min` becomes `min`, and a value above `max` and not below `min` becomes `max`, whatever the order of the bounds. |
| Engine.MinInt | Assets/Scripts/CarSpawner.cs:85 | The result is at most both arguments and is one of them: the spawn loop stops at the drawn count or the lane count, whichever comes first. |
| Engine.FloatDraw | Assets/Scripts/CarSpawner.cs:30 | A float draw lies between its two bounds, whichever order they come in, and both bounds can be drawn. The same range is used for the redraw at line 59. |
| Engine.IntDraw | Assets/Scripts/CarSpawner.cs:79 | An int draw can be `lo`. With `lo < hi` it lies in `[lo, hi)`; with equal bounds it is exactly `lo`; it never lies below the smaller bound. The same range is used for the car count (line 71) and the prefab index (line 87). |
| Engine.ClampIdempotent | Assets/Scripts/Player.cs:41 | Clamping twice into a non-empty interval gives the same result as clamping once. |
| LaneShuffle.Swap | Assets/Scripts/CarSpawner.cs:80-82 | Exchanges positions `i` and `j`, leaves every other position alone, and keeps the multiset. |
| LaneShuffle.ShuffleFrom | Assets/Scripts/CarSpawner.cs:77-83 | The lane order before step `i`, after the swap steps from `n-1` down to `i+1` with draws `j` in `[0, k]`, keeps the length and the multiset of `0..n-1`. |
| LaneShuffle.FisherYates | Assets/Scripts/CarSpawner.cs:73-83 | For any draws `j` in `[0, i]`, the shuffled lane order has the multiset of `0..n-1`. It holds `n` distinct indices, each in `[0, n)`. |
| LaneShuffle.IdentityCounts | Assets/Scripts/CarSpawner.cs:73-75 | In the initial lane array, each index in `[0, n)` occurs exactly once and nothing else occurs. |
| LaneShuffle.PermutationOfIdentity | Assets/Scripts/CarSpawner.cs:73-83 | Any sequence with the multiset of `0..n-1` has length `n`, entries in `[0, n)`, and pairwise distinct entries. |
| LaneShuffle.RepeatCounts | Assets/Scripts/CarSpawner.cs:85-88 | A value at two positions of the lane order would occur twice in its multiset. This is why the spawned lanes are distinct. |
| LaneShuffle.Identity | Assets/Scripts/CarSpawner.cs:73-75 | The freshly filled lane array has length `n` and holds `0, 1, ..., n-1` in order. |
| LaneShuffle.ShuffleLoop | Assets/Scripts/CarSpawner.cs:77-83 | The script's swap loop, run from the last index down to 1, gives the same order as `FisherYates`. |
| LaneShuffle.Shuffle | Assets/Scripts/CarSpawner.cs:73-83 | The lane shuffle of a spawn event gives the `FisherYates` order, preserves the multiset of `0..n-1`, and yields a permutation of the lane indices. |
| CarMovement.Update | Assets/Scripts/CarMovement.cs:13-24 | While paused the car is unchanged and not destroyed; game over does not stop it. Otherwise z drops by `speed*dt`, and x, y, speed and despawn line are kept. The car is destroyed exactly when it is unpaused and its new z is at or below the despawn line. With non-negative speed and dt, z does not increase. |
| CarMovement.DriveDisplacement | Assets/Scripts/CarMovement.cs:15-17 | A car that survives any run of frames has moved along z by exactly speed times the unpaused time. It keeps its x, y, speed and despawn line. |
| CarMovement.PastLineIsDestroyed | Assets/Scripts/CarMovement.cs:17-22 | Assume non-negative speed and frame durations, and a car already at or past its line. Any run with an unpaused frame destroys it. Removal, once due, stays due. |
| CarMovement.PausedFramesFreeze | Assets/Scripts/CarMovement.cs:15 | Paused frames leave a car exactly where it is and never destroy it. |
| CarMovement.SurvivorBeforeLine | Assets/Scripts/CarMovement.cs:19-22 | A car that survives a run with at least one unpaused frame is strictly before its despawn line. |
| CarSpawner.Defaults | Assets/Scripts/CarSpawner.cs:7-24 | The inspector defaults form a usable road: a positive interval range with min below max, `minX < maxX` with at least two lanes, a car count range `1 <= min <= max <= laneCount`, a positive speed, and a despawn line behind the spawn line. |
| CarSpawner.InitializeLanePositions | Assets/Scripts/CarSpawner.cs:35-45 | With a lane count of 0 or at least 2, the table has exactly `laneCount` entries. Entry `i` is `minX + i*(maxX-minX)/(laneCount-1)`. A negative count and a single lane are the two failures. |
| CarSpawner.LaneTableSpansRoad | Assets/Scripts/CarSpawner.cs:37-42 | With at least two lanes, the first lane is `minX` and the last is `maxX`. If `minX < maxX` the lanes strictly increase; if `minX <= maxX` every lane lies in `[minX, maxX]`. |
| CarSpawner.Start | Assets/Scripts/CarSpawner.cs:28-33 | The first spawn time is `now` plus the drawn interval, so it lies in `[now + minSpawnInterval, now + maxSpawnInterval]`. The lane table is exactly the one `InitializeLanePositions` builds, with `laneCount` entries. Start fails exactly for a negative count or a single lane. |
| CarSpawner.SpawnCars | Assets/Scripts/CarSpawner.cs:63-98 | With no prefabs, no cars. Otherwise exactly `count` cars, capped by the lane count and zero for a count of zero or less. Car `k` takes lane `k` of the Fisher–Yates order and prefab draw `k`. Their lane indices are pairwise distinct and in range. Each car has a prefab index in `[0, prefabs)`, sits at its lane's x on the spawn line with y 0, and carries the spawner's current speed and despawn line. |
| CarSpawner.SpawnCountInRange | Assets/Scripts/CarSpawner.cs:71 | For a car range starting at one or more, the drawn count lies in `[minCarsPerSpawn, maxCarsPerSpawn]`. The event then creates `min(count, lanes)` cars. |
| CarSpawner.SpawnedCarsApart | Assets/Scripts/CarSpawner.cs:85-90 | Over the lane table built from the configuration, on a road with `minX < maxX`, the cars of one spawn event have pairwise different x positions. |
| CarSpawner.Update | Assets/Scripts/CarSpawner.cs:47-61 | Paused, over, or before the spawn time: nothing happens. Otherwise a spawn event runs: the spawner's next spawn time becomes `now` plus the drawn interval, which lies in `[now + minSpawnInterval, now + maxSpawnInterval]`. With no prefabs, no car spawns but the timer is still redrawn. The configuration and the lane table never change. |
| GameManager.GetFloat | Assets/Scripts/GameManager.cs:57 | Reading a key returns its stored value, or the default when the key was never written. |
| GameManager.Start | Assets/Scripts/GameManager.cs:47-62 | A running session at time zero. The best time is the stored value (default 0), nothing has been written yet, the first threshold is one difficulty interval, and the session keeps the given tuning. |
| GameManager.IncreaseDifficulty | Assets/Scripts/GameManager.cs:103-117 | With no spawner, nothing. Otherwise the car speed rises by the increment. Each interval drops by the decrement when the result stays at or above its floor (0.5 and 1.0); otherwise it becomes the floor. `minSpawnInterval <= maxSpawnInterval` is preserved. Every other spawner field is kept. |
| GameManager.Update | Assets/Scripts/GameManager.cs:64-86 | Paused or over: the session and spawner are unchanged. Running: survival time grows by exactly `dt`. When it reaches the threshold, exactly one difficulty step is taken and the threshold moves one interval; otherwise both stay. The pause flag flips exactly when running and Escape is pressed. Game-over flag, best time and store are kept. |
| GameManager.GameOver | Assets/Scripts/GameManager.cs:120-143 | When already over, nothing changes. Otherwise the game is over and the best time becomes `max(bestTime, survivalTime)`. The pair ("BestTime", survivalTime) is written exactly when survival time is strictly above the best; otherwise there is no write. |
| GameManager.TogglePause | Assets/Scripts/GameManager.cs:153-157 | The pause flag flips, and nothing else changes, including game over. |
| GameManager.Restart | Assets/Scripts/GameManager.cs:146-150 | A fresh running session at time zero with no writes, over the same store and tuning. The first threshold is one difficulty interval, and the best time is read back from the store, so it is kept when it was the stored one. |
| GameManager.GameOverIdempotent | Assets/Scripts/GameManager.cs:122 | Calling `GameOver` twice gives the same session as calling it once, including best time and writes. |
| GameManager.TogglePauseInvolution | Assets/Scripts/GameManager.cs:153-156 | Toggling twice restores the session. |
| GameManager.BestTimeStaysStored | Assets/Scripts/GameManager.cs:128-132 | If the best time equals the stored value, it still does after `Update` and after `GameOver`. |
| GameManager.RunThresholdSchedule | Assets/Scripts/GameManager.cs:74-78 | Over any run of frames, the threshold moves by exactly (number of difficulty steps) × interval. It is never reset to the survival time. |
| GameManager.RunSpeedSchedule | Assets/Scripts/GameManager.cs:108 | Over any run of frames with a spawner, the car speed rises by exactly (number of difficulty steps) × increment. |
| GameManager.RunKeepsIntervals | Assets/Scripts/GameManager.cs:111-112 | Over any run of frames, `minSpawnInterval <= maxSpawnInterval` is preserved. After at least one difficulty step, both intervals are at or above their floors. |
| GameManager.NoStepsKeepSpawner | Assets/Scripts/GameManager.cs:74-78 | A run of frames that takes no difficulty step leaves the spawner unchanged. |
| GameManager.StoppedRunFreezes | Assets/Scripts/GameManager.cs:67 | While paused or over, any number of frames leaves the session and spawner unchanged. |
| GameManager.EscapeNeverResumes | Assets/Scripts/GameManager.cs:64-86 | Once paused, no run of frames resumes the session, whatever keys are pressed; a direct toggle does. |
| Player.Turn | Assets/Scripts/Player.cs:35-38 | Above 0.1 the player faces right, below -0.1 left, and within `[-0.1, 0.1]` the facing is unchanged. |
| Player.Update | Assets/Scripts/Player.cs:20-43 | Over or paused: the player is unchanged, velocity included. Running: velocity x is `input*moveSpeed`, velocity y and z are kept, and facing follows `Turn`. With `minX <= maxX`, x ends up in `[minX, maxX]`. An x below `minX` becomes `minX`, an x above `maxX` (and not below `minX`) becomes `maxX`, and a position already inside is left unchanged. |
| Player.UpdateIdempotent | Assets/Scripts/Player.cs:41-42 | A second frame with the same input and no physics step in between changes nothing more. |
| Player.OnCollisionEnter | Assets/Scripts/Player.cs:45-52 | A "Car" tag runs `GameOver` and ends the game. Any other tag changes nothing. |
| Player.SecondCollisionIsNoop | Assets/Scripts/Player.cs:47-50 | After a car collision, a further collision with anything changes nothing. |
| Gating.PausedFrameFreezes | Assets/Scripts/CarMovement.cs:15 | While paused, the manager, the player, the spawner and every car are frozen. |
| Gating.GameOverLeavesCarsMoving | Assets/Scripts/CarMovement.cs:15-17 | After game over (not paused), manager, player and spawner do nothing, but cars keep advancing by `speed*dt`. |
| Gating.ToggleAfterGameOver | Assets/Scripts/GameManager.cs:153-156 | Toggling after game over pauses without reviving the game. Toggling again gives back the game-over session. |
| Gating.CollisionStopsTheGame | Assets/Scripts/Player.cs:47-50 | After a collision with a car, manager, player and spawner do nothing on the next frame. |
| Scenarios.DefaultLaneTable | Assets/Scripts/CarSpawner.cs:16-18 | Five lanes over `[-2.2, 2.4]` are `[-2.2, -1.05, 0.1, 1.25, 2.4]`. |
| Scenarios.ShortRunKeepsBest | Assets/Scripts/GameManager.cs:128 | Game over at 9.5 s with best 12 keeps best 12 and writes nothing. |
| Scenarios.LongRunSetsBest | Assets/Scripts/GameManager.cs:128-132 | Game over at 15 s with best 12 sets best 15 with one write. A second game over adds no write. |
| Scenarios.FirstStepFromDefaults | Assets/Scripts/GameManager.cs:26-28 | One difficulty step from the defaults gives speed 3.5 and intervals 1.9 to 4.9. |
| Scenarios.RestartKeepsBestTime | Assets/Scripts/GameManager.cs:57 | Restart after game over gives a running session at time zero, with the first threshold and the best time the finished session stored. |

## Left out

- Rendering and physics are abstract state changes: `Instantiate`, `Destroy`, quaternions, `Transform.Translate` and the rigidbody integrating velocity into position. A spawned car is a `SpawnedCar` record. A destroyed car is `destroyed = true`. A car's motion is the z change its 180-degree spawn rotation gives.
- The animator speed parameter, TextMeshPro texts, the game-over panel and every `Debug.Log` are presentation only.
- `PlayerPrefs.Save()` and storage semantics are outside the model. The store is a map plus a write log.
- `Time.timeScale` is not modelled. Its effect is that a paused game's clock stands still: callers pass `dt = 0` and an unchanged `now` while paused. `Time.timeScale` is static and survives the scene reload, so a game paused after game over and then restarted has `isPaused == false` while its clock still stands still, until two more toggles.
- The shuffle's `int[]` lane array is a sequence value, so no aliasing is modelled. Its three-assignment swap through a temporary is the function `Swap`.
- The scene reload is not modelled; restart is a fresh `Start` over the same store.
- Singleton `Awake`, `FindObjectOfType` and input polling are replaced by explicit arguments. A missing game manager is a null dereference in `Player` and `CarMovement`, which the model does not represent.
- The behaviour of a spawner whose `Start` threw (negative lane count) is left out. On later frames it would dereference a missing lane table.
- IEEE float rounding is left out. In particular the dead zone is exactly 0.1, and a single lane's not-a-number position is reported as a failure, not computed.
- The statistical uniformity of `Random.Range` and of the shuffle is not claimed; the model proves ranges and permutation facts only.
- Integer draws with reversed bounds (`Random.Range(int)`), the draw may be any value between them. This superset of the engine's values only makes the proved facts stronger. `maxCarsPerSpawn + 1` is unbounded, so 32-bit wrap-around at `int.MaxValue` is not modelled.

=== FILE: car_movement.dfy ===
/**
 Per-frame motion of one car. Cars are spawned turned 180 degrees about the
 vertical axis, so moving along their own forward axis lowers the world z
 coordinate; x and y never change. After moving, a car at or past its
 despawn line is destroyed. Only the pause flag stops a car: game over does not.
 */
module CarMovement {
  import opened Engine

  datatype Car = Car(x: real, y: real, z: real, speed: real, destroyZPosition: real)

  /** A car after one frame, and whether that frame destroyed it. */
  datatype Tick = Tick(car: Car, destroyed: bool)

  /** The inputs of one frame: the game's pause flag and the frame's duration. */
  datatype Frame = Frame(isPaused: bool, dt: real)

  function Update(c: Car, isPaused: bool, dt: real): (t: Tick)
    ensures isPaused ==> t.car == c && !t.destroyed
    ensures t.car.x == c.x && t.car.y == c.y
    ensures t.car.speed == c.speed && t.car.destroyZPosition == c.destroyZPosition
    ensures !isPaused ==> c.z - t.car.z == c.speed * dt
    ensures t.destroyed <==> !isPaused && t.car.z <= c.destroyZPosition
    ensures c.speed >= 0.0 && dt >= 0.0 ==> t.car.z <= c.z
  {
    if isPaused then Tick(c, false)
    else
      var moved := c.(z := c.z - c.speed * dt);
      Tick(moved, moved.z <= moved.destroyZPosition)
  }

  /** A car driven through a run of frames: `None` once some frame destroyed it. */
  function Drive(c: Car, frames: seq<Frame>): Option<Car>
    decreases |frames|
  {
    if |frames| == 0 then Some(c)
    else
      var t := Update(c, frames[0].isPaused, frames[0].dt);
      if t.destroyed then None else Drive(t.car, frames[1..])
  }

  /** The total duration of the frames in which the game was not paused. */
  function UnpausedTime(frames: seq<Frame>): real
  {
    if |frames| == 0 then 0.0
    else (if frames[0].isPaused then 0.0 else frames[0].dt) + UnpausedTime(frames[1..])
  }

  predicate NonNegativeFrames(frames: seq<Frame>)
  {
    forall k :: 0 <= k < |frames| ==> frames[k].dt >= 0.0
  }

  /**
   A car that survives a run of frames has moved along z by exactly its speed
   times the unpaused time, and kept its lane, height, speed and despawn line.
   */
  lemma {:induction false} DriveDisplacement(c: Car, frames: seq<Frame>)
    ensures Drive(c, frames).Some? ==>
      var d := Drive(c, frames).value;
      && d.x == c.x && d.y == c.y
      && d.speed == c.speed && d.destroyZPosition == c.destroyZPosition
      && c.z - d.z == c.speed * UnpausedTime(frames)
    decreases |frames|
  {
    if |frames| > 0 {
      var t := Update(c, frames[0].isPaused, frames[0].dt);
      if !t.destroyed {
        DriveDisplacement(t.car, frames[1..]);
        var first := if frames[0].isPaused then 0.0 else frames[0].dt;
        var rest := UnpausedTime(frames[1..]);
        assert UnpausedTime(frames) == first + rest;
        assert c.speed * (first + rest) == c.speed * first + c.speed * rest;
      }
    }
  }

  /**
   With a non-negative speed and frame durations, z never increases, so a car
   at or past its despawn line is destroyed by the first unpaused frame: once
   removal is due it cannot be undone by later motion.
   */
  lemma {:induction false} PastLineIsDestroyed(c: Car, frames: seq<Frame>)
    requires c.speed >= 0.0 && NonNegativeFrames(frames)
    requires c.z <= c.destroyZPosition
    requires exists k :: 0 <= k < |frames| && !frames[k].isPaused
    ensures Drive(c, frames) == None
    decreases |frames|
  {
    var t := Update(c, frames[0].isPaused, frames[0].dt);
    if !t.destroyed {
      assert frames[0].isPaused;
      assert t.car == c;
      var k :| 0 <= k < |frames| && !frames[k].isPaused;
      assert frames[1..][k - 1] == frames[k];
      PastLineIsDestroyed(c, frames[1..]);
    }
  }

  /** Frames in which the game is paused leave a car where it is. */
  lemma {:induction false} PausedFramesFreeze(c: Car, frames: seq<Frame>)
    requires forall k :: 0 <= k < |frames| ==> frames[k].isPaused
    ensures Drive(c, frames) == Some(c)
    decreases |frames|
  {
    if |frames| > 0 {
      PausedFramesFreeze(c, frames[1..]);
    }
  }

  /** A car that survives a run with at least one unpaused frame is before its despawn line. */
  lemma {:induction false} SurvivorBeforeLine(c: Car, frames: seq<Frame>)
    requires exists k :: 0 <= k < |frames| && !frames[k].isPaused
    ensures Drive(c, frames).Some? ==> Drive(c, frames).value.z > c.destroyZPosition
    decreases |frames|
  {
    var t := Update(c, frames[0].isPaused, frames[0].dt);
    if !t.destroyed {
      var rest := frames[1..];
      if exists k :: 0 <= k < |rest| && !rest[k].isPaused {
        SurvivorBeforeLine(t.car, rest);
      } else {
        PausedFramesFreeze(t.car, rest);
      }
    }
  }
}

=== FILE: car_spawner.dfy ===
/**
 The car spawner: an evenly spaced lane table, a spawn timer redrawn after
 every spawn event, and the spawn event itself, which shuffles the lane
 indices and puts each new car in a different lane.

 Every random value is a parameter (see `SpawnDraws`), constrained to the
 range the engine's `Random.Range` call could have produced. The clock is the
 parameter `now`.
 */
module CarSpawner {
  import opened Engine
  import LaneShuffle
  import CarMovement

  /** The spawner's inspector fields; `prefabCount` is the length of the car prefab array. */
  datatype Config = Config(
    prefabCount: nat,
    minSpawnInterval: real,
    maxSpawnInterval: real,
    carSpeed: real,
    spawnZPosition: real,
    destroyZPosition: real,
    minXPosition: real,
    maxXPosition: real,
    laneCount: int,
    minCarsPerSpawn: int,
    maxCarsPerSpawn: int)

  /** The field initialisers of the spawner script, with the given number of car prefabs. */
  function Defaults(prefabCount: nat): (c: Config)
    ensures c.prefabCount == prefabCount
    ensures 0.0 < c.minSpawnInterval <= c.maxSpawnInterval
    ensures c.minXPosition < c.maxXPosition && c.laneCount >= 2
    ensures 1 <= c.minCarsPerSpawn <= c.maxCarsPerSpawn <= c.laneCount
    ensures c.carSpeed > 0.0 && c.destroyZPosition < c.spawnZPosition
  {
    Config(prefabCount, 2.0, 5.0, 3.0, 2.0, -15.0, -2.2, 2.4, 5, 1, 3)
  }

  /**
   Why the lane table cannot be built: a negative lane count fails the array
   allocation; a single lane divides by zero, which in floating point makes
   that lane's position not-a-number.
   */
  datatype LaneError = NegativeLaneCount | SingleLane

  datatype Spawner = Spawner(cfg: Config, spawnXPositions: seq<real>, nextSpawnTime: real)

  /** What the spawner sees of the game manager: nothing, or its two flags. */
  datatype ManagerView = NoManager | Manager(isPaused: bool, isGameOver: bool)

  /** One car created by a spawn event: its lane index, prefab index and initial state. */
  datatype SpawnedCar = SpawnedCar(lane: int, prefab: int, car: CarMovement.Car)

  /**
   The draws of one spawn event, in the order the script makes them: the car
   count, the shuffle's swap positions (`swaps[i]` at step `i`), and one prefab
   index per created car.
   */
  datatype SpawnDraws = SpawnDraws(count: int, swaps: seq<int>, prefabs: seq<int>)

  /** The spawner after one frame and the cars that frame created. */
  datatype Step = Step(spawner: Spawner, spawned: seq<SpawnedCar>)

  // ---------------------------------------------------------------- lane table

  function LanePosition(minX: real, maxX: real, laneCount: int, i: int): real
    requires laneCount != 1
  {
    var laneWidth := (maxX - minX) / ((laneCount - 1) as real);
    minX + laneWidth * (i as real)
  }

  /**
   `InitializeLanePositions`: `laneCount` positions, the i-th at `minX` plus
   `i` lane widths, where a lane width is the road width over `laneCount - 1`.
   */
  function InitializeLanePositions(minX: real, maxX: real, laneCount: int): (r: Result<seq<real>, LaneError>)
    ensures r == Failure(NegativeLaneCount) <==> laneCount < 0
    ensures r == Failure(SingleLane) <==> laneCount == 1
    ensures r.Success? ==> |r.value| == laneCount
    ensures r.Success? ==> forall i :: 0 <= i < |r.value| ==>
      r.value[i] == minX + (i as real) * (maxX - minX) / ((laneCount - 1) as real)
  {
    if laneCount < 0 then Failure(NegativeLaneCount)
    else if laneCount == 1 then Failure(SingleLane)
    else
      var lanes := seq(laneCount, i requires 0 <= i < laneCount => LanePosition(minX, maxX, laneCount, i));
      assert forall i :: 0 <= i < laneCount ==>
        lanes[i] == minX + (i as real) * (maxX - minX) / ((laneCount - 1) as real) by {
        forall i | 0 <= i < laneCount
          ensures lanes[i] == minX + (i as real) * (maxX - minX) / ((laneCount - 1) as real)
        {
          WidthTimesIndex(maxX - minX, (laneCount - 1) as real, i as real);
        }
      }
      Success(lanes)
  }

  lemma WidthTimesIndex(w: real, d: real, i: real)
    requires d != 0.0
    ensures (w / d) * i == i * w / d
  {
  }

  /**
   With at least two lanes the table starts at `minX`, ends at `maxX`, and is
   strictly increasing when `minX < maxX` (so distinct lanes are distinct
   positions).
   */
  lemma LaneTableSpansRoad(minX: real, maxX: real, laneCount: int)
    requires laneCount >= 2
    ensures InitializeLanePositions(minX, maxX, laneCount).Success?
    ensures var lanes := InitializeLanePositions(minX, maxX, laneCount).value;
      && lanes[0] == minX
      && lanes[laneCount - 1] == maxX
      && (minX < maxX ==> forall a, b :: 0 <= a < b < laneCount ==> lanes[a] < lanes[b])
      && (minX <= maxX ==> forall a :: 0 <= a < laneCount ==> minX <= lanes[a] <= maxX)
  {
    var lanes := InitializeLanePositions(minX, maxX, laneCount).value;
    var d := (laneCount - 1) as real;
    var w := (maxX - minX) / d;
    assert lanes[laneCount - 1] == minX + w * d;
    assert w * d == maxX - minX;
    forall a, b | 0 <= a < b < laneCount && minX < maxX
      ensures lanes[a] < lanes[b]
    {
      assert w > 0.0;
      assert lanes[b] - lanes[a] == w * ((b - a) as real);
    }
    forall a | 0 <= a < laneCount && minX <= maxX
      ensures minX <= lanes[a] <= maxX
    {
      assert w >= 0.0;
      assert lanes[a] == minX + w * (a as real);
      assert w * (a as real) <= w * d;
    }
  }

  /**
   `Start`: the first spawn time is `now` plus a drawn interval, then the lane
   table is built from the configuration.
   */
  function Start(cfg: Config, now: real, interval: real): (r: Result<Spawner, LaneError>)
    requires FloatDraw(cfg.minSpawnInterval, cfg.maxSpawnInterval, interval)
    ensures r.Failure? <==> cfg.laneCount < 0 || cfg.laneCount == 1
    ensures r.Success? ==> r.value.cfg == cfg && |r.value.spawnXPositions| == cfg.laneCount
    ensures r.Success? ==>
      && InitializeLanePositions(cfg.minXPosition, cfg.maxXPosition, cfg.laneCount) == Success(r.value.spawnXPositions)
      && r.value.nextSpawnTime == now + interval
    ensures r.Success? && cfg.minSpawnInterval <= cfg.maxSpawnInterval ==>
      now + cfg.minSpawnInterval <= r.value.nextSpawnTime <= now + cfg.maxSpawnInterval
  {
    var nextSpawnTime := now + interval;
    match InitializeLanePositions(cfg.minXPosition, cfg.maxXPosition, cfg.laneCount)
    case Failure(e) => Failure(e)
    case Success(lanes) => Success(Spawner(cfg, lanes, nextSpawnTime))
  }

  // --------------------------------------------------------------- spawn event

  /** How many cars a spawn event creates: the drawn count, capped by the number of lanes. */
  function SpawnCount(count: int, laneTotal: nat): nat
  {
    if count <= 0 then 0 else MinInt(count, laneTotal)
  }

  /** The draws of a spawn event lie in the ranges of the script's `Random.Range` calls. */
  predicate ValidSpawnDraws(cfg: Config, laneTotal: nat, d: SpawnDraws)
  {
    && IntDraw(cfg.minCarsPerSpawn, cfg.maxCarsPerSpawn + 1, d.count)
    && LaneShuffle.ValidSwapDraws(laneTotal, d.swaps)
    && |d.prefabs| == SpawnCount(d.count, laneTotal)
    && forall k :: 0 <= k < |d.prefabs| ==> IntDraw(0, cfg.prefabCount, d.prefabs[k])
  }

  /**
   `SpawnCars`: with no prefabs, nothing; otherwise one car per shuffled lane,
   for the first `count` lanes of the shuffle, each at its lane's position on
   the spawn line with the spawner's current speed and despawn line.
   */
  function SpawnCars(cfg: Config, lanes: seq<real>, d: SpawnDraws): (cars: seq<SpawnedCar>)
    requires cfg.prefabCount > 0 ==> ValidSpawnDraws(cfg, |lanes|, d)
    ensures cfg.prefabCount == 0 ==> cars == []
    ensures cfg.prefabCount > 0 ==> |cars| == SpawnCount(d.count, |lanes|)
    ensures |cars| <= |lanes|
    ensures forall a, b :: 0 <= a < b < |cars| ==> cars[a].lane != cars[b].lane
    ensures forall k :: 0 <= k < |cars| ==>
      && 0 <= cars[k].lane < |lanes|
      && 0 <= cars[k].prefab < cfg.prefabCount
      && cars[k].car == CarMovement.Car(lanes[cars[k].lane], 0.0, cfg.spawnZPosition, cfg.carSpeed, cfg.destroyZPosition)
    ensures cfg.prefabCount > 0 ==> forall k :: 0 <= k < |cars| ==>
      cars[k].lane == LaneShuffle.FisherYates(|lanes|, d.swaps)[k] && cars[k].prefab == d.prefabs[k]
  {
    if cfg.prefabCount == 0 then []
    else
      var order := LaneShuffle.FisherYates(|lanes|, d.swaps);
      var n := SpawnCount(d.count, |lanes|);
      seq(n, k requires 0 <= k < n =>
        SpawnedCar(order[k], d.prefabs[k],
          CarMovement.Car(lanes[order[k]], 0.0, cfg.spawnZPosition, cfg.carSpeed, cfg.destroyZPosition)))
  }

  /**
   The drawn car count lies in `[minCarsPerSpawn, maxCarsPerSpawn]`, and when
   that range starts at one or more the event creates exactly
   `min(count, lanes)` cars.
   */
  lemma SpawnCountInRange(cfg: Config, lanes: seq<real>, d: SpawnDraws)
    requires cfg.prefabCount > 0 && ValidSpawnDraws(cfg, |lanes|, d)
    requires 1 <= cfg.minCarsPerSpawn <= cfg.maxCarsPerSpawn
    ensures cfg.minCarsPerSpawn <= d.count <= cfg.maxCarsPerSpawn
    ensures |SpawnCars(cfg, lanes, d)| == MinInt(d.count, |lanes|)
  {
  }

  /** Cars of one spawn event stand at pairwise different positions when the lanes are strictly increasing. */
  lemma SpawnedCarsApart(cfg: Config, lanes: seq<real>, d: SpawnDraws)
    requires cfg.minXPosition < cfg.maxXPosition
    requires InitializeLanePositions(cfg.minXPosition, cfg.maxXPosition, cfg.laneCount) == Success(lanes)
    requires cfg.prefabCount > 0 ==> ValidSpawnDraws(cfg, |lanes|, d)
    ensures forall a, b :: 0 <= a < b < |SpawnCars(cfg, lanes, d)| ==>
      SpawnCars(cfg, lanes, d)[a].car.x != SpawnCars(cfg, lanes, d)[b].car.x
  {
    if cfg.laneCount >= 2 {
      LaneTableSpansRoad(cfg.minXPosition, cfg.maxXPosition, cfg.laneCount);
    }
    var cars := SpawnCars(cfg, lanes, d);
    forall a, b | 0 <= a < b < |cars|
      ensures cars[a].car.x != cars[b].car.x
    {
      var la, lb := cars[a].lane, cars[b].lane;
      assert la != lb;
      if la < lb {
        assert lanes[la] < lanes[lb];
      } else {
        assert lanes[lb] < lanes[la];
      }
    }
  }

  // -------------------------------------------------------------------- update

  /** The game manager exists and is paused or over: the spawner does nothing this frame. */
  predicate Gated(m: ManagerView)
  {
    m.Manager? && (m.isPaused || m.isGameOver)
  }

  /** This frame runs a spawn event. */
  predicate Fires(s: Spawner, m: ManagerView, now: real)
  {
    !Gated(m) && now >= s.nextSpawnTime
  }

  /** The draws a frame consumes are in range; a frame that does not fire consumes none. */
  predicate ValidFrameDraws(s: Spawner, m: ManagerView, now: real, d: SpawnDraws, interval: real)
  {
    Fires(s, m, now) ==>
      && (s.cfg.prefabCount > 0 ==> ValidSpawnDraws(s.cfg, |s.spawnXPositions|, d))
      && FloatDraw(s.cfg.minSpawnInterval, s.cfg.maxSpawnInterval, interval)
  }

  /**
   `Update`: gated by the manager's flags; when the clock has reached the
   spawn time, run a spawn event and then redraw the spawn time from `now`,
   whether or not the event created anything.
   */
  function Update(s: Spawner, m: ManagerView, now: real, d: SpawnDraws, interval: real): (r: Step)
    requires ValidFrameDraws(s, m, now, d, interval)
    ensures !Fires(s, m, now) ==> r == Step(s, [])
    ensures r.spawner.cfg == s.cfg && r.spawner.spawnXPositions == s.spawnXPositions
    ensures Fires(s, m, now) && s.cfg.minSpawnInterval <= s.cfg.maxSpawnInterval ==>
      now + s.cfg.minSpawnInterval <= r.spawner.nextSpawnTime <= now + s.cfg.maxSpawnInterval
    ensures Fires(s, m, now) ==> r.spawned == SpawnCars(s.cfg, s.spawnXPositions, d)
    ensures Fires(s, m, now) ==> r.spawner.nextSpawnTime == now + interval
    ensures Fires(s, m, now) && s.cfg.prefabCount == 0 ==> r.spawned == [] && r.spawner.nextSpawnTime == now + interval
    ensures r.spawned != [] ==> Fires(s, m, now)
  {
    if Gated(m) then Step(s, [])
    else if now >= s.nextSpawnTime then
      var cars := SpawnCars(s.cfg, s.spawnXPositions, d);
      Step(s.(nextSpawnTime := now + interval), cars)
    else Step(s, [])
  }
}

=== FILE: engine.dfy ===
/**
 The engine services the game scripts call, reduced to what the scripts rely on:
 an optional value, a result with an error, `Mathf.Max`, `Mathf.Clamp`, and the
 ranges Unity's `Random.Range` promises. Random draws are never made here; a draw
 is a parameter of the caller, constrained by one of the range predicates below.
 */
module Engine {

  datatype Option<+T> = None | Some(value: T)

  datatype Result<+T, +E> = Success(value: T) | Failure(error: E)

  /** `Mathf.Max(a, b)`: `a` when `a > b`, otherwise `b`. */
  function Max(a: real, b: real): (r: real)
    ensures r >= a && r >= b
    ensures r == a || r == b
  {
    if a > b then a else b
  }

  /**
   The smaller of two ints: the spawn loop runs while its index is below both
   the drawn car count and the number of lanes, so it stops at the smaller one.
   */
  function MinInt(a: int, b: int): (r: int)
    ensures r <= a && r <= b
    ensures r == a || r == b
  {
    if a < b then a else b
  }

  /**
   `Mathf.Clamp(value, min, max)`: raised to `min` when below it, otherwise
   lowered to `max` when above it. The bounds are not reordered: with
   `min > max` a value below `min` still becomes `min`.
   */
  function Clamp(value: real, min: real, max: real): (r: real)
    ensures min <= max ==> min <= r <= max
    ensures min <= value <= max ==> r == value
    ensures value < min ==> r == min
    ensures min <= value && value > max ==> r == max
  {
    if value < min then min else if value > max then max else value
  }

  /** Clamping into a non-empty interval is idempotent. */
  lemma ClampIdempotent(value: real, min: real, max: real)
    requires min <= max
    ensures Clamp(Clamp(value, min, max), min, max) == Clamp(value, min, max)
  {
  }

  /**
   The values `Random.Range(lo, hi)` on floats can return: both ends
   inclusive; with the bounds reversed, the same closed interval.
   */
  function FloatDraw(lo: real, hi: real, x: real): (b: bool)
    ensures b <==> (lo <= x && x <= hi) || (hi <= x && x <= lo)
    ensures x == lo || x == hi ==> b
  {
    if lo <= hi then lo <= x <= hi else hi <= x <= lo
  }

  /**
   The values `Random.Range(lo, hiExclusive)` on ints can return: `lo` up to
   but excluding `hiExclusive`; exactly `lo` when the bounds are equal; with the
   bounds reversed, any value between them (a superset of what the engine does).
   */
  function IntDraw(lo: int, hiExclusive: int, x: int): (b: bool)
    ensures x == lo ==> b
    ensures lo < hiExclusive ==> (b <==> lo <= x && x < hiExclusive)
    ensures lo == hiExclusive ==> (b <==> x == lo)
    ensures b ==> MinInt(lo, hiExclusive) <= x && (x < hiExclusive || x <= lo)
  {
    if lo < hiExclusive then lo <= x < hiExclusive
    else if lo == hiExclusive then x == lo
    else hiExclusive <= x <= lo
  }
}

=== FILE: game_manager.dfy ===
/**
 The game session: the game-over and pause flags that gate every other
 script, the survival clock, the best time kept in the player preferences, and
 the difficulty controller that speeds cars up and shortens the spawn
 intervals on a fixed cadence of survival time.

 The preference store is a map from key to float together with the log of the
 writes this session made to it. The frame duration and the pause key are
 parameters of `Update`.
 */
module GameManager {
  import opened Engine
  import CarSpawner

  const BestTimeKey: string := "BestTime"

  /** The floors of the spawn intervals after a difficulty step. */
  const MinSpawnIntervalFloor: real := 0.5
  const MaxSpawnIntervalFloor: real := 1.0

  datatype PrefWrite = SetFloat(key: string, value: real)

  /** The difficulty fields of the manager's inspector. */
  datatype Tuning = Tuning(difficultyIncreaseInterval: real, speedIncreaseAmount: real, spawnIntervalDecreaseAmount: real)

  const DefaultTuning := Tuning(10.0, 0.5, 0.1)

  datatype Session = Session(
    isGameOver: bool,
    isPaused: bool,
    survivalTime: real,
    bestTime: real,
    tuning: Tuning,
    nextDifficultyIncrease: real,
    prefs: map<string, real>,
    writes: seq<PrefWrite>)

  /** The session together with the spawner it steers (absent when the scene has none). */
  datatype World = World(session: Session, spawner: Option<CarSpawner.Spawner>)

  /** Neither over nor paused: the only state in which the session's clock runs. */
  predicate Running(s: Session)
  {
    !s.isGameOver && !s.isPaused
  }

  /** What the spawner reads of this session. */
  function View(s: Session): CarSpawner.ManagerView
  {
    CarSpawner.Manager(s.isPaused, s.isGameOver)
  }

  /** `PlayerPrefs.GetFloat(key, default)`: the stored value, or the default when the key was never set. */
  function GetFloat(prefs: map<string, real>, key: string, default: real): (r: real)
    ensures key in prefs ==> r == prefs[key]
    ensures key !in prefs ==> r == default
  {
    if key in prefs then prefs[key] else default
  }

  /** The best time is the stored one: every change to it was written through. */
  predicate BestTimeStored(s: Session)
  {
    s.bestTime == GetFloat(s.prefs, BestTimeKey, 0.0)
  }

  /**
   `Start`: a running session at survival time zero, with the best time
   loaded from the store and the first difficulty step one interval away.
   */
  function Start(tuning: Tuning, prefs: map<string, real>): (s: Session)
    ensures Running(s) && s.survivalTime == 0.0
    ensures BestTimeStored(s) && s.prefs == prefs && s.writes == []
    ensures s.tuning == tuning
    ensures s.nextDifficultyIncrease == tuning.difficultyIncreaseInterval
  {
    Session(false, false, 0.0, GetFloat(prefs, BestTimeKey, 0.0), tuning, tuning.difficultyIncreaseInterval, prefs, [])
  }

  /**
   `IncreaseDifficulty`: with no spawner, nothing; otherwise the car speed
   rises by one increment and each spawn interval drops by one decrement,
   but not below its floor. Nothing else about the spawner changes.
   */
  function IncreaseDifficulty(sp: Option<CarSpawner.Spawner>, t: Tuning): (r: Option<CarSpawner.Spawner>)
    ensures sp.None? <==> r.None?
    ensures sp.Some? ==>
      var c, c' := sp.value.cfg, r.value.cfg;
      && c'.carSpeed == c.carSpeed + t.speedIncreaseAmount
      && c'.minSpawnInterval >= MinSpawnIntervalFloor
      && c'.maxSpawnInterval >= MaxSpawnIntervalFloor
      && (c.minSpawnInterval - t.spawnIntervalDecreaseAmount >= MinSpawnIntervalFloor ==>
            c'.minSpawnInterval == c.minSpawnInterval - t.spawnIntervalDecreaseAmount)
      && (c.minSpawnInterval - t.spawnIntervalDecreaseAmount < MinSpawnIntervalFloor ==>
            c'.minSpawnInterval == MinSpawnIntervalFloor)
      && (c.maxSpawnInterval - t.spawnIntervalDecreaseAmount >= MaxSpawnIntervalFloor ==>
            c'.maxSpawnInterval == c.maxSpawnInterval - t.spawnIntervalDecreaseAmount)
      && (c.maxSpawnInterval - t.spawnIntervalDecreaseAmount < MaxSpawnIntervalFloor ==>
            c'.maxSpawnInterval == MaxSpawnIntervalFloor)
      && (c.minSpawnInterval <= c.maxSpawnInterval ==> c'.minSpawnInterval <= c'.maxSpawnInterval)
      && c' == c.(carSpeed := c'.carSpeed, minSpawnInterval := c'.minSpawnInterval, maxSpawnInterval := c'.maxSpawnInterval)
      && r.value.spawnXPositions == sp.value.spawnXPositions
      && r.value.nextSpawnTime == sp.value.nextSpawnTime
  {
    match sp
    case None => None
    case Some(s) =>
      var c := s.cfg;
      Some(s.(cfg := c.(
        carSpeed := c.carSpeed + t.speedIncreaseAmount,
        minSpawnInterval := Max(MinSpawnIntervalFloor, c.minSpawnInterval - t.spawnIntervalDecreaseAmount),
        maxSpawnInterval := Max(MaxSpawnIntervalFloor, c.maxSpawnInterval - t.spawnIntervalDecreaseAmount))))
  }

  /** This frame takes a difficulty step. */
  predicate Escalates(s: Session, dt: real)
  {
    Running(s) && s.survivalTime + dt >= s.nextDifficultyIncrease
  }

  /**
   `Update`: nothing unless running. Otherwise the survival clock advances
   by the frame's duration; when it reaches the threshold, one difficulty
   step is taken and the threshold moves one interval further; and the pause
   key toggles the pause flag.
   */
  function Update(w: World, dt: real, escapePressed: bool): (r: World)
    ensures !Running(w.session) ==> r == w
    ensures Running(w.session) ==> r.session.survivalTime == w.session.survivalTime + dt
    ensures Escalates(w.session, dt) ==>
      && r.session.nextDifficultyIncrease == w.session.nextDifficultyIncrease + w.session.tuning.difficultyIncreaseInterval
      && r.spawner == IncreaseDifficulty(w.spawner, w.session.tuning)
    ensures !Escalates(w.session, dt) ==>
      r.session.nextDifficultyIncrease == w.session.nextDifficultyIncrease && r.spawner == w.spawner
    ensures r.session.isPaused != w.session.isPaused <==> Running(w.session) && escapePressed
    ensures r.session.isGameOver == w.session.isGameOver
    ensures r.session.bestTime == w.session.bestTime && r.session.tuning == w.session.tuning
    ensures r.session.prefs == w.session.prefs && r.session.writes == w.session.writes
  {
    var s := w.session;
    if !Running(s) then w
    else
      var s1 := s.(survivalTime := s.survivalTime + dt);
      var w2 :=
        if s1.survivalTime >= s1.nextDifficultyIncrease then
          World(s1.(nextDifficultyIncrease := s1.nextDifficultyIncrease + s1.tuning.difficultyIncreaseInterval),
                IncreaseDifficulty(w.spawner, s1.tuning))
        else World(s1, w.spawner);
      if escapePressed then w2.(session := TogglePause(w2.session)) else w2
  }

  /**
   `GameOver`: a no-op when the game is already over. Otherwise the game is
   over, and a survival time strictly above the best becomes the new best and
   is written to the store under the best-time key, exactly once.
   */
  function GameOver(s: Session): (r: Session)
    ensures s.isGameOver ==> r == s
    ensures r.isGameOver
    ensures !s.isGameOver ==> r.bestTime == Max(s.bestTime, s.survivalTime)
    ensures !s.isGameOver && s.survivalTime > s.bestTime ==>
      r.writes == s.writes + [SetFloat(BestTimeKey, s.survivalTime)] && r.prefs == s.prefs[BestTimeKey := s.survivalTime]
    ensures !(s.survivalTime > s.bestTime) ==> r.writes == s.writes && r.prefs == s.prefs && r.bestTime == s.bestTime
    ensures r.isPaused == s.isPaused && r.survivalTime == s.survivalTime && r.tuning == s.tuning
    ensures r.nextDifficultyIncrease == s.nextDifficultyIncrease
  {
    if s.isGameOver then s
    else
      var s1 := s.(isGameOver := true);
      if s1.survivalTime > s1.bestTime then
        s1.(bestTime := s1.survivalTime,
            prefs := s1.prefs[BestTimeKey := s1.survivalTime],
            writes := s1.writes + [SetFloat(BestTimeKey, s1.survivalTime)])
      else s1
  }

  /** `TogglePause`: flips the pause flag, whatever the game-over flag says. */
  function TogglePause(s: Session): (r: Session)
    ensures r.isPaused != s.isPaused
    ensures r.(isPaused := s.isPaused) == s
  {
    s.(isPaused := !s.isPaused)
  }

  /**
   `OnRestartButtonClicked` reloads the scene: a fresh session over the same
   preference store, and the spawner as the scene configured it.
   */
  function Restart(s: Session): (r: Session)
    ensures Running(r) && r.survivalTime == 0.0 && r.writes == []
    ensures r.prefs == s.prefs && r.tuning == s.tuning && BestTimeStored(r)
    ensures r.nextDifficultyIncrease == s.tuning.difficultyIncreaseInterval
    ensures BestTimeStored(s) ==> r.bestTime == s.bestTime
  {
    Start(s.tuning, s.prefs)
  }

  // ------------------------------------------------------------------ lemmas

  /** Calling `GameOver` a second time changes nothing: not the best time, not the store. */
  lemma GameOverIdempotent(s: Session)
    ensures GameOver(GameOver(s)) == GameOver(s)
  {
  }

  /** Toggling pause twice restores the session. */
  lemma TogglePauseInvolution(s: Session)
    ensures TogglePause(TogglePause(s)) == s
  {
  }

  /** The best time is the stored best time at start, and neither `Update` nor `GameOver` breaks that. */
  lemma BestTimeStaysStored(w: World, dt: real, escapePressed: bool)
    requires BestTimeStored(w.session)
    ensures BestTimeStored(Update(w, dt, escapePressed).session)
    ensures BestTimeStored(GameOver(w.session))
  {
  }

  /** The inputs of one manager frame. */
  datatype Input = Input(dt: real, escapePressed: bool)

  /** The manager driven through a run of frames. */
  function Run(w: World, inputs: seq<Input>): World
    decreases |inputs|
  {
    if |inputs| == 0 then w
    else Run(Update(w, inputs[0].dt, inputs[0].escapePressed), inputs[1..])
  }

  /** The number of difficulty steps taken during a run of frames. */
  function Steps(w: World, inputs: seq<Input>): nat
    decreases |inputs|
  {
    if |inputs| == 0 then 0
    else
      (if Escalates(w.session, inputs[0].dt) then 1 else 0)
      + Steps(Update(w, inputs[0].dt, inputs[0].escapePressed), inputs[1..])
  }

  /** The spawn intervals keep `minSpawnInterval <= maxSpawnInterval`. */
  predicate IntervalsOrdered(sp: Option<CarSpawner.Spawner>)
  {
    sp.Some? ==> sp.value.cfg.minSpawnInterval <= sp.value.cfg.maxSpawnInterval
  }

  /** Both spawn intervals sit at or above their floors. */
  predicate AboveFloors(sp: Option<CarSpawner.Spawner>)
  {
    sp.Some? ==>
      sp.value.cfg.minSpawnInterval >= MinSpawnIntervalFloor && sp.value.cfg.maxSpawnInterval >= MaxSpawnIntervalFloor
  }

  /** `k` copies of `size` added up. */
  function Repeat(k: nat, size: real): (r: real)
    ensures r == (k as real) * size
  {
    if k == 0 then 0.0 else Repeat(k - 1, size) + size
  }

  /**
   Over any run of frames the thresholds accumulate from the original
   schedule: after `k` difficulty steps the threshold has moved by exactly
   `k` intervals, never reset to the survival time.
   */
  lemma RunThresholdSchedule(w: World, inputs: seq<Input>)
    ensures Run(w, inputs).session.tuning == w.session.tuning
    ensures Run(w, inputs).session.nextDifficultyIncrease
      == w.session.nextDifficultyIncrease + (Steps(w, inputs) as real) * w.session.tuning.difficultyIncreaseInterval
  {
    RunThresholdRepeat(w, inputs);
    RepeatedSum(Run(w, inputs).session.nextDifficultyIncrease, w.session.nextDifficultyIncrease,
      Steps(w, inputs), w.session.tuning.difficultyIncreaseInterval);
  }

  /** A start plus `k` repeated additions of `size` is the start plus `k` times `size`. */
  lemma RepeatedSum(total: real, start: real, k: nat, size: real)
    requires total == start + Repeat(k, size)
    ensures total == start + (k as real) * size
  {
  }

  lemma {:induction false} RunThresholdRepeat(w: World, inputs: seq<Input>)
    ensures Run(w, inputs).session.tuning == w.session.tuning
    ensures Run(w, inputs).session.nextDifficultyIncrease
      == w.session.nextDifficultyIncrease + Repeat(Steps(w, inputs), w.session.tuning.difficultyIncreaseInterval)
    decreases |inputs|
  {
    if |inputs| > 0 {
      var w1 := Update(w, inputs[0].dt, inputs[0].escapePressed);
      RunThresholdRepeat(w1, inputs[1..]);
      assert Steps(w, inputs) == (if Escalates(w.session, inputs[0].dt) then 1 else 0) + Steps(w1, inputs[1..]);
    }
  }

  /** Over any run of frames with a spawner, the car speed has risen by one increment per difficulty step. */
  lemma RunSpeedSchedule(w: World, inputs: seq<Input>)
    requires w.spawner.Some?
    ensures Run(w, inputs).spawner.Some?
    ensures Run(w, inputs).spawner.value.cfg.carSpeed
      == w.spawner.value.cfg.carSpeed + (Steps(w, inputs) as real) * w.session.tuning.speedIncreaseAmount
  {
    RunSpeedRepeat(w, inputs);
  }

  lemma {:induction false} RunSpeedRepeat(w: World, inputs: seq<Input>)
    requires w.spawner.Some?
    ensures Run(w, inputs).spawner.Some?
    ensures Run(w, inputs).spawner.value.cfg.carSpeed
      == w.spawner.value.cfg.carSpeed + Repeat(Steps(w, inputs), w.session.tuning.speedIncreaseAmount)
    decreases |inputs|
  {
    if |inputs| > 0 {
      var w1 := Update(w, inputs[0].dt, inputs[0].escapePressed);
      RunSpeedRepeat(w1, inputs[1..]);
      assert Steps(w, inputs) == (if Escalates(w.session, inputs[0].dt) then 1 else 0) + Steps(w1, inputs[1..]);
    }
  }

  /**
   Over any run of frames the spawn intervals stay ordered, and once a
   difficulty step has been taken both sit at or above their floors.
   */
  lemma {:induction false} RunKeepsIntervals(w: World, inputs: seq<Input>)
    requires IntervalsOrdered(w.spawner)
    ensures IntervalsOrdered(Run(w, inputs).spawner)
    ensures AboveFloors(w.spawner) || Steps(w, inputs) > 0 ==> AboveFloors(Run(w, inputs).spawner)
    decreases |inputs|
  {
    if |inputs| > 0 {
      var w1 := Update(w, inputs[0].dt, inputs[0].escapePressed);
      RunKeepsIntervals(w1, inputs[1..]);
      if Steps(w1, inputs[1..]) == 0 {
        NoStepsKeepSpawner(w1, inputs[1..]);
      }
    }
  }

  /** A run with no difficulty step leaves the spawner as it was. */
  lemma {:induction false} NoStepsKeepSpawner(w: World, inputs: seq<Input>)
    requires Steps(w, inputs) == 0
    ensures Run(w, inputs).spawner == w.spawner
    decreases |inputs|
  {
    if |inputs| > 0 {
      NoStepsKeepSpawner(Update(w, inputs[0].dt, inputs[0].escapePressed), inputs[1..]);
    }
  }

  /** While paused or over, any number of frames changes nothing. */
  lemma {:induction false} StoppedRunFreezes(w: World, inputs: seq<Input>)
    requires !Running(w.session)
    ensures Run(w, inputs) == w
    decreases |inputs|
  {
    if |inputs| > 0 {
      StoppedRunFreezes(w, inputs[1..]);
    }
  }

  /**
   Escape only pauses, contrary to the script's comment that it toggles pause
   on and off: the key is read inside the running branch, so once the session
   is paused no run of frames, Escape presses included, resumes it. Only a
   direct call of the public `TogglePause` from outside the scripts does.
   */
  lemma EscapeNeverResumes(w: World, inputs: seq<Input>)
    requires w.session.isPaused
    ensures Run(w, inputs).session.isPaused
    ensures !TogglePause(w.session).isPaused
  {
    StoppedRunFreezes(w, inputs);
  }
}

=== FILE: gating.dfy ===
/**
 How the session's two flags gate the four scripts within one frame. The
 gates are not uniform: the manager, the spawner and the player stop when the
 game is paused or over, but cars stop only when paused, and the pause toggle
 itself ignores the game-over flag.
 */
module Gating {
  import opened Engine
  import CarMovement
  import CarSpawner
  import GameManager
  import Player

  /** While paused, no script changes anything: session, spawner, player and every car are frozen. */
  lemma PausedFrameFreezes(
    s: GameManager.Session, sp: Option<CarSpawner.Spawner>, dt: real, escapePressed: bool,
    p: Player.Player, moveInput: real,
    spawner: CarSpawner.Spawner, now: real, d: CarSpawner.SpawnDraws, interval: real,
    c: CarMovement.Car)
    requires s.isPaused
    ensures GameManager.Update(GameManager.World(s, sp), dt, escapePressed) == GameManager.World(s, sp)
    ensures Player.Update(p, s, moveInput) == p
    ensures CarSpawner.Update(spawner, GameManager.View(s), now, d, interval) == CarSpawner.Step(spawner, [])
    ensures CarMovement.Update(c, s.isPaused, dt) == CarMovement.Tick(c, false)
  {
  }

  /**
   After game over (and not paused), the session, the spawner and the player
   are frozen, but cars keep moving toward their despawn line.
   */
  lemma GameOverLeavesCarsMoving(
    s: GameManager.Session, sp: Option<CarSpawner.Spawner>, dt: real, escapePressed: bool,
    p: Player.Player, moveInput: real,
    spawner: CarSpawner.Spawner, now: real, d: CarSpawner.SpawnDraws, interval: real,
    c: CarMovement.Car)
    requires s.isGameOver && !s.isPaused
    ensures GameManager.Update(GameManager.World(s, sp), dt, escapePressed) == GameManager.World(s, sp)
    ensures Player.Update(p, s, moveInput) == p
    ensures CarSpawner.Update(spawner, GameManager.View(s), now, d, interval) == CarSpawner.Step(spawner, [])
    ensures CarMovement.Update(c, s.isPaused, dt).car.z == c.z - c.speed * dt
  {
  }

  /**
   The pause toggle does not look at the game-over flag: toggling after game
   over pauses the session without reviving it, and toggling again unpauses it,
   still over.
   */
  lemma ToggleAfterGameOver(s: GameManager.Session)
    requires !s.isPaused
    ensures var over := GameManager.GameOver(s);
      && GameManager.TogglePause(over).isPaused
      && GameManager.TogglePause(over).isGameOver
      && GameManager.TogglePause(GameManager.TogglePause(over)) == over
  {
    GameManager.TogglePauseInvolution(GameManager.GameOver(s));
  }

  /** A collision with a car stops the manager, the spawner and the player from the next frame on. */
  lemma CollisionStopsTheGame(
    s: GameManager.Session, sp: Option<CarSpawner.Spawner>, dt: real, escapePressed: bool,
    p: Player.Player, moveInput: real,
    spawner: CarSpawner.Spawner, now: real, d: CarSpawner.SpawnDraws, interval: real)
    ensures var over := Player.OnCollisionEnter(s, Player.CarTag);
      && GameManager.Update(GameManager.World(over, sp), dt, escapePressed) == GameManager.World(over, sp)
      && Player.Update(p, over, moveInput) == p
      && CarSpawner.Update(spawner, GameManager.View(over), now, d, interval) == CarSpawner.Step(spawner, [])
  {
  }
}

=== FILE: lane_shuffle.dfy ===
/**
 The lane-index shuffle of a spawn event: the identity arrangement of lane
 indices `0 .. n-1`, permuted by a Fisher–Yates shuffle that walks from the last
 index down to 1 and swaps position `i` with a drawn position `j` in `[0, i]`
 (Knuth, The Art of Computer Programming vol. 2, section 3.4.2, Algorithm P).

 The draws are a parameter: `draws[i]` is the value drawn at step `i`
 (`draws[0]` is never used). The recursive `FisherYates` is the reference
 definition; `ShuffleLoop` is the loop the spawner runs, proved equal to it,
 and `Shuffle` is the spawner's shuffle step built on it. The
 script's array is a sequence value here, and its three-assignment swap through
 a temporary is `Swap`.
 */
module LaneShuffle {
  import opened Engine

  /** The lane array as first filled: index `i` holds `i`. */
  function Identity(n: nat): (r: seq<int>)
    ensures |r| == n
    ensures forall i :: 0 <= i < n ==> r[i] == i
  {
    seq(n, i => i)
  }

  /** The draw made at step `i` is `Random.Range(0, i + 1)`, for every step `1 <= i < n`. */
  predicate ValidSwapDraws(n: nat, draws: seq<int>)
  {
    |draws| == n && forall i :: 1 <= i < n ==> IntDraw(0, i + 1, draws[i])
  }

  /** A sequence of `n` distinct lane indices, each in `[0, n)`. */
  predicate IsLanePermutation(s: seq<int>, n: nat)
  {
    && |s| == n
    && (forall k :: 0 <= k < |s| ==> 0 <= s[k] < n)
    && (forall a, b :: 0 <= a < b < |s| ==> s[a] != s[b])
  }

  function Swap(s: seq<int>, i: nat, j: nat): (r: seq<int>)
    requires i < |s| && j < |s|
    ensures |r| == |s|
    ensures r[i] == s[j] && r[j] == s[i]
    ensures forall k :: 0 <= k < |s| && k != i && k != j ==> r[k] == s[k]
    ensures multiset(r) == multiset(s)
  {
    s[i := s[j]][j := s[i]]
  }

  /**
   The lane order just before step `i`: the identity arrangement after the
   steps `n-1, n-2, ..., i+1`, where step `k` swaps position `k` with the
   drawn position `draws[k]`.
   */
  function ShuffleFrom(n: nat, draws: seq<int>, i: nat): (r: seq<int>)
    requires ValidSwapDraws(n, draws) && i < n
    ensures |r| == n
    ensures multiset(r) == multiset(Identity(n))
    decreases n - i
  {
    if i == n - 1 then Identity(n)
    else
      assert IntDraw(0, i + 2, draws[i + 1]);
      Swap(ShuffleFrom(n, draws, i + 1), i + 1, draws[i + 1])
  }

  /** The lane order of one spawn event with `n` lanes: every step down to 1 taken. */
  function FisherYates(n: nat, draws: seq<int>): (r: seq<int>)
    requires ValidSwapDraws(n, draws)
    ensures multiset(r) == multiset(Identity(n))
    ensures IsLanePermutation(r, n)
  {
    var r := if n == 0 then [] else ShuffleFrom(n, draws, 0);
    PermutationOfIdentity(r, n);
    r
  }

  /** Each value in `[0, n)` occurs exactly once in the identity arrangement. */
  lemma {:induction false} IdentityCounts(n: nat)
    ensures forall v :: multiset(Identity(n))[v] == (if 0 <= v < n then 1 else 0)
  {
    if n > 0 {
      IdentityCounts(n - 1);
      assert Identity(n) == Identity(n - 1) + [n - 1];
    }
  }

  /** Anything with the multiset of the identity is a permutation of the lane indices. */
  lemma PermutationOfIdentity(s: seq<int>, n: nat)
    requires multiset(s) == multiset(Identity(n))
    ensures IsLanePermutation(s, n)
  {
    IdentityCounts(n);
    calc {
      |s|;
      |multiset(s)|;
      |multiset(Identity(n))|;
      n;
    }
    forall k | 0 <= k < |s|
      ensures 0 <= s[k] < n
    {
      assert s[k] in multiset(s);
    }
    forall a, b | 0 <= a < b < |s|
      ensures s[a] != s[b]
    {
      RepeatCounts(s, a, b);
    }
  }

  /** A value at two positions of a sequence occurs at least twice in its multiset. */
  lemma RepeatCounts(s: seq<int>, a: nat, b: nat)
    requires a < b < |s|
    ensures s[a] == s[b] ==> multiset(s)[s[a]] >= 2
  {
    var v := s[a];
    assert s == s[..a] + [v] + s[a + 1..b] + [s[b]] + s[b + 1..];
  }

  /**
   The swap loop of `CarSpawner.SpawnCars` as the script runs it: start from
   the lane indices in order, then from the last index down to 1 swap
   position `i` with the drawn position.
   */
  method ShuffleLoop(n: nat, draws: seq<int>) returns (lanes: seq<int>)
    requires ValidSwapDraws(n, draws)
    ensures lanes == FisherYates(n, draws)
  {
    lanes := Identity(n);
    var i := n - 1;
    while i > 0
      invariant i < n && (n > 0 ==> 0 <= i) && |lanes| == n
      invariant n > 0 ==> lanes == ShuffleFrom(n, draws, i)
    {
      assert IntDraw(0, i + 1, draws[i]);
      lanes := Swap(lanes, i, draws[i]);
      i := i - 1;
    }
  }

  /** The lane shuffle of a spawn event: the script's loop, which yields a permutation of the lane indices. */
  method Shuffle(n: nat, draws: seq<int>) returns (lanes: seq<int>)
    requires ValidSwapDraws(n, draws)
    ensures lanes == FisherYates(n, draws)
    ensures multiset(lanes) == multiset(Identity(n))
    ensures IsLanePermutation(lanes, n)
  {
    lanes := ShuffleLoop(n, draws);
  }
}

=== FILE: player.dfy ===
/**
 The player: each frame, unless the game is over or paused, the horizontal
 input sets the sideways velocity, a firm enough input turns the player to
 face that way, and the position is held between the road's bounds. Touching
 a car ends the game.

 The horizontal input is a parameter. The physics engine integrates the
 velocity into the position between frames; that integration is not part of
 this model, so `Update` sees the position the engine left.
 */
module Player {
  import opened Engine
  import GameManager

  const CarTag: string := "Car"

  /** Inputs whose magnitude does not exceed this leave the facing as it is. */
  const DeadZone: real := 0.1

  datatype Vec3 = Vec3(x: real, y: real, z: real)

  /** `AsPlaced` is the rotation the scene gave the player before any turn. */
  datatype Facing = AsPlaced | Right | Left

  datatype Player = Player(position: Vec3, velocity: Vec3, facing: Facing, moveSpeed: real, minX: real, maxX: real)

  /** The facing after an input: right above the dead zone, left below it, unchanged inside it. */
  function Turn(facing: Facing, moveInput: real): (r: Facing)
    ensures moveInput > DeadZone ==> r == Right
    ensures moveInput < -DeadZone ==> r == Left
    ensures -DeadZone <= moveInput <= DeadZone ==> r == facing
  {
    if moveInput > DeadZone then Right
    else if moveInput < -DeadZone then Left
    else facing
  }

  /**
   `Update`: nothing while the game is over or paused (the velocity is not
   zeroed either). Otherwise the sideways velocity is the input times the move
   speed, the other velocity components are kept, the facing follows the input
   outside the dead zone, and x is clamped into `[minX, maxX]`.
   */
  function Update(p: Player, s: GameManager.Session, moveInput: real): (r: Player)
    ensures s.isGameOver || s.isPaused ==> r == p
    ensures !s.isGameOver && !s.isPaused ==>
      && r.velocity == Vec3(moveInput * p.moveSpeed, p.velocity.y, p.velocity.z)
      && r.facing == Turn(p.facing, moveInput)
      && r.position.y == p.position.y && r.position.z == p.position.z
    ensures !s.isGameOver && !s.isPaused && p.minX <= p.maxX ==> p.minX <= r.position.x <= p.maxX
    ensures !s.isGameOver && !s.isPaused && p.position.x < p.minX ==> r.position.x == p.minX
    ensures !s.isGameOver && !s.isPaused && p.minX <= p.position.x && p.position.x > p.maxX ==> r.position.x == p.maxX
    ensures p.minX <= p.position.x <= p.maxX ==> r.position == p.position
    ensures r.moveSpeed == p.moveSpeed && r.minX == p.minX && r.maxX == p.maxX
  {
    if s.isGameOver || s.isPaused then p
    else
      var velocity := Vec3(moveInput * p.moveSpeed, p.velocity.y, p.velocity.z);
      var clampedX := Clamp(p.position.x, p.minX, p.maxX);
      p.(velocity := velocity, facing := Turn(p.facing, moveInput), position := p.position.(x := clampedX))
  }

  /**
   The clamp is idempotent: a second frame with the same input and no
   physics step in between leaves the player as the first frame did.
   */
  lemma UpdateIdempotent(p: Player, s: GameManager.Session, moveInput: real)
    requires p.minX <= p.maxX
    ensures Update(Update(p, s, moveInput), s, moveInput) == Update(p, s, moveInput)
  {
    ClampIdempotent(p.position.x, p.minX, p.maxX);
  }

  /** `OnCollisionEnter`: a car ends the game; any other tag changes nothing. */
  function OnCollisionEnter(s: GameManager.Session, tag: string): (r: GameManager.Session)
    ensures tag == CarTag ==> r == GameManager.GameOver(s)
    ensures tag != CarTag ==> r == s
    ensures tag == CarTag ==> r.isGameOver
  {
    if tag == CarTag then GameManager.GameOver(s) else s
  }

  /** Colliding with a car a second time changes nothing. */
  lemma SecondCollisionIsNoop(s: GameManager.Session, tag: string)
    ensures OnCollisionEnter(OnCollisionEnter(s, CarTag), tag) == OnCollisionEnter(s, CarTag)
  {
    GameManager.GameOverIdempotent(s);
  }
}

=== FILE: scenarios.dfy ===
/**
 Worked cases of the model with the scene's own numbers: the default lane
 table, the best-time rule on both sides of the comparison, a difficulty step
 from the spawner's defaults, and a restart after game over.
 */
module Scenarios {
  import opened Engine
  import CarSpawner
  import GameManager

  /** Five lanes over `[-2.2, 2.4]` are 1.15 apart. */
  lemma DefaultLaneTable()
    ensures CarSpawner.InitializeLanePositions(-2.2, 2.4, 5) == Success([-2.2, -1.05, 0.1, 1.25, 2.4])
  {
    var r := CarSpawner.InitializeLanePositions(-2.2, 2.4, 5);
    var expected := [-2.2, -1.05, 0.1, 1.25, 2.4];
    assert |r.value| == 5;
    assert forall i :: 0 <= i < 5 ==> r.value[i] == expected[i];
    assert r.value == expected;
  }

  /** A run shorter than the best leaves the best time and the store alone. */
  lemma ShortRunKeepsBest(s: GameManager.Session)
    requires !s.isGameOver && s.survivalTime == 9.5 && s.bestTime == 12.0
    ensures GameManager.GameOver(s).bestTime == 12.0
    ensures GameManager.GameOver(s).writes == s.writes
  {
  }

  /** A run longer than the best becomes the best, written once under the best-time key. */
  lemma LongRunSetsBest(s: GameManager.Session)
    requires !s.isGameOver && s.survivalTime == 15.0 && s.bestTime == 12.0 && s.writes == []
    ensures GameManager.GameOver(s).bestTime == 15.0
    ensures GameManager.GameOver(s).writes == [GameManager.SetFloat("BestTime", 15.0)]
    ensures GameManager.GameOver(GameManager.GameOver(s)).writes == [GameManager.SetFloat("BestTime", 15.0)]
  {
  }

  /** One difficulty step from the spawner's defaults: speed 3.5, intervals 1.9 to 4.9. */
  lemma FirstStepFromDefaults(sp: CarSpawner.Spawner)
    requires sp.cfg == CarSpawner.Defaults(7)
    ensures var c := GameManager.IncreaseDifficulty(Some(sp), GameManager.DefaultTuning).value.cfg;
      c.carSpeed == 3.5 && c.minSpawnInterval == 1.9 && c.maxSpawnInterval == 4.9
  {
  }

  /**
   A restart after game over begins a fresh running session at time zero,
   with the best time the finished session had stored.
   */
  lemma RestartKeepsBestTime(s: GameManager.Session)
    requires GameManager.BestTimeStored(s)
    ensures var r := GameManager.Restart(GameManager.GameOver(s));
      && GameManager.Running(r) && r.survivalTime == 0.0
      && r.nextDifficultyIncrease == s.tuning.difficultyIncreaseInterval
      && r.bestTime == GameManager.GameOver(s).bestTime
  {
    GameManager.BestTimeStaysStored(GameManager.World(s, None), 0.0, false);
  }
}
